=== FILE: README.md ===
# Wave simulation renderer — a Dafny model

The renderer drives a 2D wave field on the GPU. The field is a grid of W x H
cells, each holding height, velocity and mass. The host fills a flat
`Float32Array` with the initial cells. It creates two field buffers, A and B,
and two bind groups that use them in opposite roles (ping-pong). Every
animation frame then runs two compute kernels (`updateField`, `processField`)
and one render pass. Each of them binds group `step % 2`.

This project models the renderer class of `src/lib/renderer.ts`:

- **Layout** (`layout.dfy`): the sizes the constructor computes. This covers the field
  resolution, the 8 x 8 workgroup count per axis, the flat cell index and the quad
  vertex array.
- **Field** (`field.dfy`): what `initField` and `rect` leave in the field array. These
  are functions on sequences, with lemmas about each cell.
- **Bindings** (`bindings.dfy`): the two-entry bind-group table built by
  `createBindings`, and its ping-pong properties. Buffers are opaque identities.
- **Schedule** (`schedule.dfy`): the commands that `start` and `update` give the device,
  as a `Command` datatype: compute pass, render pass, submit and simulation-time write.
  Lemmas cover pass order, parity, counts and buffer hand-off.
- **WaveRenderer** (`renderer.dfy`): class `Renderer` with the source's fields. The
  constructor, `init`, `createArrays`, `createBindings`, `initField`, `rect`,
  `updateField`, `processField`, `render`, `start` and `update` are its methods. The
  device is replaced by a `trace` field that collects every command in order.
  `initField` and `rect` update `fieldStateArray` in place. `update` increments `step`
  and writes `uniformTimeArray[0]`. `StartAndAnimate` constructs and initialises a
  renderer, starts it and runs a given number of frames. It returns what the device
  received.

The model follows the branches and constants of the code. It differs in the points
listed under "Left out": Float32 values are exact reals (including the simulation
time `update` stores), the one-iteration loop in `update` is written out, `rect`
requires its rectangle to lie inside the field, and the field resolution is halved
by integer division. The last of these corrects a defect in the source. The field resolution is meant to
be half the canvas size rounded down. The constructor instead divides as a float
(`canvas.width / 2`), which gives a half cell when a side is odd. The model uses
integer division and records the as-written behaviour under "Findings".

## Model

| member | source | states |
|---|---|---|
| Layout.FieldResolution | src/lib/renderer.ts:74 | each field side is half the canvas side rounded down: 2W <= width < 2W + 2 |
| Layout.WorkgroupCount | src/lib/renderer.ts:79-80 | the tile count c covers n cells, c * size >= n, and one fewer tile does not, (c - 1) * size < n |
| Layout.WorkgroupCountUnique | src/lib/renderer.ts:79-80 | a count equals WorkgroupCount exactly when it satisfies both covering bounds, so the count is ceil(n / size) |
| Layout.TilesCoverField | src/lib/renderer.ts:79-80 | every column (row) x < n of the field falls in a dispatched tile: x / size < count |
| Layout.Dispatch | src/lib/renderer.ts:77-80 | both axes of the workgroup grid satisfy the ceil(n / 8) covering bounds |
| Layout.DispatchExamples | src/lib/renderer.ts:74-80 | 8 cells give 1 tile and 9 give 2; a 640 x 480 canvas gives a 320 x 240 field of 230400 floats and a 40 x 30 grid |
| Layout.CellIndex | src/lib/renderer.ts:116-117 | the flat position x + y * W of cell (x, y) decodes back to column x and row y of a W-wide grid |
| Layout.CellInField | src/lib/renderer.ts:116 | a cell inside the W x H grid has a position below W * H, so its three floats are inside the array |
| Layout.FieldResolutionAsWritten | src/lib/renderer.ts:74 | the constructor's float division: twice each field side is the canvas side, even when that side is odd |
| Layout.OddCanvasWidthMisplacesCells | src/lib/renderer.ts:74 | on a 641-wide canvas the stride is 320.5 but the uniform holds 320; rect's cell (0, 2) is the shader's (1, 2) and cell (0, 1) has no integral position |
| Layout.FieldResolutionFitsUniform | src/lib/renderer.ts:232 | with integer division the field resolution is stored unchanged in the Uint32 uniform |
| Layout.ToUint32 | src/lib/renderer.ts:231-232 | a Uint32Array element is below 2^32 and equals the integer stored when it is in range |
| Layout.QuadVertices | src/lib/renderer.ts:222-229 | the quad has 12 floats (6 vertices) in [-1, 1], two triangles sharing the diagonal (-1, -1)-(1, 1) |
| Field.SetCell | src/lib/renderer.ts:116-120 | writing one cell changes exactly the three floats whose position / 3 is that cell, to height, velocity, mass in that order |
| Field.RectPaintsExactlyRegion | src/lib/renderer.ts:113-123 | after rect, an array entry holds the new channel value exactly when its cell lies in the rectangle; every other entry is unchanged |
| Field.RectCellValues | src/lib/renderer.ts:113-123 | per cell: (x, y) inside the rectangle holds (height, vel, mass) at (x + y*W)*3 .. +2; a cell outside keeps its three old values |
| Field.RectLastWriteWins | src/lib/renderer.ts:113-123 | painting a region twice leaves what the second paint alone leaves |
| Field.RectIdempotent | src/lib/renderer.ts:113-123 | rect applied twice with the same arguments equals rect applied once |
| Field.InitialField | src/lib/renderer.ts:125-131 | the initial array has W*H*3 floats and every cell i holds height 0, velocity 0, mass 1 at 3i, 3i+1, 3i+2 |
| Field.InitialFieldIsWholeGridPaint | src/lib/renderer.ts:125-131 | the initial field equals painting the whole W x H grid with (0, 0, 1), whatever the array held before |
| Bindings.BindGroupTable | src/lib/renderer.ts:289-322 | two groups of five entries, entry j binding slot j; group 0 reads A and writes B, group 1 reads B and writes A; no group reads and writes one buffer; slots 0-2 are the same three uniforms in both |
| Bindings.SelectGroup | src/lib/renderer.ts:176 | the index `step % 2` always selects an existing group (below 2) |
| Bindings.GroupAt | src/lib/renderer.ts:199 | the group bound at a step has five slots and is one of the groups of the table; it is group A exactly when the step is even |
| Bindings.PingPong | src/lib/renderer.ts:289-322 | at every step source and target differ; A is the source exactly at even steps; one step's target is the next step's source and the other way round; roles repeat every two steps |
| Schedule.FrameParity | src/lib/renderer.ts:98-104 | within one update updateField and processField bind opposite groups: processField reads the buffer updateField wrote and writes the one it read, and the render pass reads updateField's output |
| Schedule.RenderReadsPreviousProcessTarget | src/lib/renderer.ts:98-103 | the buffer processField writes in one update is written again by the next update's updateField and read by that update's render pass |
| Schedule.FramesAt | src/lib/renderer.ts:93-111 | n updates issue 5n commands; update number i occupies positions 5i .. 5i+4 and issues the frame commands of step first + i |
| Schedule.SessionCounts | src/lib/renderer.ts:83-104 | start issues no compute pass; start plus n updates give n + 1 submissions, n + 1 render passes and 2n compute passes |
| Schedule.SessionSimTimes | src/lib/renderer.ts:108-109 | the simulation times written after n updates are 1, 2, ..., n, strictly increasing, the last equal to n |
| Schedule.SessionPingPongSafe | src/lib/renderer.ts:176-199 | no pass of start plus n updates binds the same buffer as source and target |
| Schedule.TwoUpdatesScenario | src/lib/renderer.ts:83-104 | start and the first updateField read A; the render of the second update reads the buffer the first processField wrote, which is A |
| WaveRenderer.Renderer.constructor | src/lib/renderer.ts:70-81 | step starts at 0 with an empty trace; the field resolution and workgroup grid are the functions above of the canvas size |
| WaveRenderer.Renderer.Init | src/lib/renderer.ts:205-219 | init succeeds exactly when a device is available; on success the arrays and groups exist, the quad is loaded, both resolution uniforms hold the canvas and field sizes as Uint32, and the field is initial; on failure nothing changes |
| WaveRenderer.Renderer.CreateArrays | src/lib/renderer.ts:221-235 | fresh, distinct arrays: the 12-float quad, time [0], both resolutions as Uint32, and a W*H*3 field holding the initial cells |
| WaveRenderer.Renderer.CreateBindings | src/lib/renderer.ts:289-323 | the renderer's groups become the ping-pong table (group B built as a copy of A with slots 3 and 4 rebound) |
| WaveRenderer.Renderer.InitField | src/lib/renderer.ts:125-131 | the field array becomes the initial field, every cell (0, 0, 1) |
| WaveRenderer.Renderer.Rect | src/lib/renderer.ts:113-123 | needs only a field array of W*H*3 floats; the array becomes the old array with the rectangle painted, with the properties proved for PaintRect |
| WaveRenderer.Renderer.UpdateField | src/lib/renderer.ts:173-179 | appends one updateField pass bound to group step % 2 over the workgroup grid |
| WaveRenderer.Renderer.ProcessField | src/lib/renderer.ts:181-187 | appends one processField pass bound to group step % 2 over the workgroup grid |
| WaveRenderer.Renderer.Render | src/lib/renderer.ts:189-203 | appends one render pass clearing to (0, 0, 0.4, 1), bound to group step % 2, drawing vertexArray.length / 2 = 6 vertices |
| WaveRenderer.Renderer.Start | src/lib/renderer.ts:83-87 | appends the start commands: a render pass and a submit, no compute pass |
| WaveRenderer.Renderer.Update | src/lib/renderer.ts:93-109 | step grows by exactly one; the trace grows by the frame commands of the old step; the host time array holds the new step; the field array is untouched |
| WaveRenderer.StartAndAnimate | src/lib/renderer.ts:83-111 | started exactly when a device is available; then after n frames step == n, the host time equals n, and the device received start plus n updates; otherwise nothing was issued |

## Left out

- The WebGPU device calls `initApi`, `initCanvas`, `createBuffer`, `createBuffers`, `createLayouts`, `createVertexLayout` and `createPipelines` are not modelled. They only hand descriptors to the device. The `writeBuffer` of the new time in `update` is modelled as the `WriteSimTime` command. The initial uploads in `writeBuffers` (the quad, the uniforms, and the initial field into both field buffers) are not modelled. Buffers appear only as the opaque `BufferId` values that the bind groups refer to. Pipelines appear only as the `Kernel` of a compute pass.
- The bind-group layout (slot types and stage visibility) is not modelled. It is a device descriptor.
- The shader programs (`vertex.wgsl`, `fragment.wgsl`, `compute.wgsl`) are not part of this model. What the kernels compute, and when a dispatch completes on the GPU, is not modelled.
- `getTime` and the `renderTime` text are not modelled. They read the wall clock and write to the page.
- `setTimeout` and `requestAnimationFrame` are host callbacks. `StartAndAnimate` stands for that chain of callbacks as a loop of `frames` explicit updates. The one-time 1 ms delay before the first frame is not modelled.
- `getRandomValue`, `getInRange` and `radians` are not modelled. They are floating-point and random helpers that the core never calls.
- `src/index.ts` is DOM glue. Only its rule "start only if init returned true" is kept, inside `StartAndAnimate`. The "not supported" page is not modelled.
- `console.log` calls are not modelled.
- Float32 values are modelled as `real`. A Float32Array rounds every value stored into it: `rect` with `vel = 0.1` stores 0.100000001490116... So `Field.RectCellValues` and `WaveRenderer.Renderer.Rect` hold as stated in the source only for values that a float32 represents exactly. The initial cells (0, 0, 1) are exact.
- WaveRenderer.Renderer.Update: the simulation time is stored as the exact `step as real`. The source stores it in a Float32Array, which stops being exact above 2^24 steps. `step` itself is a JS number: `step++` stops changing it at 2^53, because 2^53 + 1 rounds back to 2^53. From there on the parity stays even and both compute passes would bind group A, which `Schedule.FrameParity` rules out for the model's unbounded `nat` step.
- The `for (let i = 0; i < 1; i++)` loop in `update` runs exactly once. The model writes its single iteration out.
- WaveRenderer.Renderer.Rect: requires the rectangle to lie inside the field. The source leaves this to its callers. It does not check bounds: a column past the right edge wraps into the next row, one left of 0 into the previous row, and only positions outside the array (or fractional ones) are dropped. With W = H = 4, `rect([3, 0], [2, 1], ...)` also writes cell (0, 1), at indices 12..14.
- Layout.FieldResolution: uses integer division. The source divides as a float. See Findings. On an odd canvas side the source's other sizes differ from the model's too: a 641 x 480 canvas gives `Math.ceil(320.5 / 8)` = 41 workgroups across where the model dispatches 40, and an array of 320.5 * 240 * 3 = 230760 floats where the model has 230400.

## Findings

| source | as written | input that shows it | evidently intended | confidence | as-written member | corrected member |
|---|---|---|---|---|---|---|
| src/lib/renderer.ts:74 | `fieldResolution = [canvas.width / 2, canvas.height / 2]` is a float division. `rect` then indexes rows with the fractional width. `new Uint32Array(fieldResolution)` truncates that width for the shaders. | A canvas 641 pixels wide gives a field width of 320.5 while the uniform holds 320. `rect`'s cell (0, 2) is at position 641, which is the shaders' cell (1, 2). Cell (0, 1) is at 320.5, which no array element has. | The field side is the canvas side halved and rounded down, as an integer. The host and the shaders then share one row stride. | medium, not executed | Layout.OddCanvasWidthMisplacesCells | Layout.FieldResolution, Layout.FieldResolutionFitsUniform |

=== FILE: bindings.dfy ===
/**
 * The two bind groups of the renderer. Both bind the same three uniforms to
 * slots 0-2; group A binds field buffer A to slot 3 (the read-only source)
 * and B to slot 4 (the writable target), group B the other way round. A pass
 * picks group `step % 2`.
 */
module Bindings {

  /** Identities of the GPU buffers created at initialisation, as opaque names. */
  datatype BufferId =
    | VertexBuffer
    | UniformTimeBuffer
    | UniformResolutionBuffer
    | UniformFieldResolutionBuffer
    | FieldStateBuffer(index: nat)  // 0 is "Field state A", 1 is "Field state B"

  /** One resource of a bind group: the binding slot and the buffer bound there. */
  datatype BindEntry = BindEntry(binding: nat, buffer: BufferId)

  type BindGroup = seq<BindEntry>

  /** Slot of the field buffer a pass reads (read-only storage). */
  const SourceSlot: nat := 3
  /** Slot of the field buffer a compute pass writes (read-write storage). */
  const TargetSlot: nat := 4

  /** The field buffer a group binds as source. */
  function Source(g: BindGroup): BufferId
    requires |g| == 5
  {
    g[SourceSlot].buffer
  }

  /** The field buffer a group binds as target. */
  function Target(g: BindGroup): BufferId
    requires |g| == 5
  {
    g[TargetSlot].buffer
  }

  /** The entries of group A: uniforms in slots 0-2, field A as source, field B as target. */
  function GroupAEntries(): seq<BindEntry>
  {
    [BindEntry(0, UniformTimeBuffer),
     BindEntry(1, UniformResolutionBuffer),
     BindEntry(2, UniformFieldResolutionBuffer),
     BindEntry(3, FieldStateBuffer(0)),
     BindEntry(4, FieldStateBuffer(1))]
  }

  /** The entries of group B: a copy of `entries` whose slots 3 and 4 are rebound to fields B and A. */
  function GroupBEntries(entries: seq<BindEntry>): seq<BindEntry>
    requires |entries| == 5
  {
    entries[3 := BindEntry(3, FieldStateBuffer(1))][4 := BindEntry(4, FieldStateBuffer(0))]
  }

  /**
   * The bind-group table `bindGroups`. Entry j of each group binds slot j;
   * group g reads field buffer g and writes field buffer 1 - g, so no group
   * binds one buffer as both source and target; the uniform slots are shared.
   */
  function BindGroupTable(): (t: seq<BindGroup>)
    ensures |t| == 2
    ensures forall g :: 0 <= g < 2 ==> |t[g]| == 5
    ensures forall g, j :: 0 <= g < 2 && 0 <= j < 5 ==> t[g][j].binding == j
    ensures Source(t[0]) == FieldStateBuffer(0) && Target(t[0]) == FieldStateBuffer(1)
    ensures Source(t[1]) == FieldStateBuffer(1) && Target(t[1]) == FieldStateBuffer(0)
    ensures forall g :: 0 <= g < 2 ==> Source(t[g]) != Target(t[g])
    ensures t[0][..3] == t[1][..3]
    ensures t[0][..3] == [BindEntry(0, UniformTimeBuffer), BindEntry(1, UniformResolutionBuffer),
                          BindEntry(2, UniformFieldResolutionBuffer)]
  {
    var a := GroupAEntries();
    [a, GroupBEntries(a)]
  }

  /** The table index a pass uses at a given simulation step: `step % 2`. */
  function SelectGroup(step: nat): (i: nat)
    ensures i < 2
  {
    step % 2
  }

  /** The group a pass binds at a given simulation step: group A at even steps, group B at odd ones. */
  function GroupAt(step: nat): (g: BindGroup)
    ensures |g| == 5
    ensures g in BindGroupTable()
    ensures g == BindGroupTable()[0] <==> step % 2 == 0
  {
    var t := BindGroupTable();
    assert Source(t[0]) != Source(t[1]);
    t[SelectGroup(step)]
  }

  /**
   * Ping-pong discipline: at every step the source and target differ, field A
   * is the source exactly at even steps, the target of one step is the source
   * of the next, and the roles repeat every two steps.
   */
  lemma PingPong(step: nat)
    ensures Source(GroupAt(step)) != Target(GroupAt(step))
    ensures Source(GroupAt(step)) == FieldStateBuffer(0) <==> step % 2 == 0
    ensures Target(GroupAt(step)) == Source(GroupAt(step + 1))
    ensures Source(GroupAt(step)) == Target(GroupAt(step + 1))
    ensures GroupAt(step + 2) == GroupAt(step)
  {
    if step % 2 == 0 {
      assert (step + 1) % 2 == 1 && (step + 2) % 2 == 0;
    } else {
      assert (step + 1) % 2 == 0 && (step + 2) % 2 == 1;
    }
  }
}

=== FILE: field.dfy ===
/**
 * The host-side field state: a flat array of W * H cells, three floats per
 * cell in the order height, velocity, mass. This module gives the value the
 * array holds after `initField` and after `rect`, as functions on sequences,
 * and proves what those values are cell by cell.
 */
module Field {
  import opened Layout

  /** The three channels of one cell. */
  datatype Cell = Cell(height: real, velocity: real, mass: real)
  {
    /** Channel j in storage order: 0 height, 1 velocity, 2 mass. */
    function Channel(j: nat): real
    {
      if j == 0 then height else if j == 1 then velocity else mass
    }
  }

  /** The cell every position holds after initialisation; its mass is never zero. */
  const DefaultCell: Cell := Cell(0.0, 0.0, 1.0)

  /** The array `s` with cell `pos` overwritten by `c`, all other entries kept. */
  function SetCell(s: seq<real>, pos: nat, c: Cell): (r: seq<real>)
    requires 3 * pos + 3 <= |s|
    ensures |r| == |s|
    ensures forall k :: 0 <= k < |s| ==> r[k] == if k / 3 == pos then c.Channel(k % 3) else s[k]
  {
    s[3 * pos := c.height][3 * pos + 1 := c.velocity][3 * pos + 2 := c.mass]
  }

  /** True when flat cell position `pos` of a `w`-wide grid lies in the rectangle [x0, x0+rw) x [y0, y0+rh). */
  predicate InRect(pos: nat, w: nat, x0: nat, y0: nat, rw: nat, rh: nat)
  {
    w > 0 && x0 <= pos % w < x0 + rw && y0 <= pos / w < y0 + rh
  }

  /** Cells (x, y) for y in [y0, yEnd) set to `c`, in the order the inner loop of rect writes them. */
  function PaintColumn(s: seq<real>, w: nat, h: nat, x: nat, y0: nat, yEnd: nat, c: Cell): (r: seq<real>)
    requires |s| == w * h * 3 && x < w && yEnd <= h
    ensures |r| == |s|
    decreases yEnd
  {
    if yEnd <= y0 then s
    else
      CellInField(x, yEnd - 1, w, h);
      SetCell(PaintColumn(s, w, h, x, y0, yEnd - 1, c), CellIndex(x, yEnd - 1, w), c)
  }

  /** Columns x in [x0, xEnd) painted with rows [y0, yEnd), in the order of rect's outer loop. */
  function PaintColumns(s: seq<real>, w: nat, h: nat, x0: nat, xEnd: nat, y0: nat, yEnd: nat, c: Cell): (r: seq<real>)
    requires |s| == w * h * 3 && xEnd <= w && yEnd <= h
    ensures |r| == |s|
    decreases xEnd
  {
    if xEnd <= x0 then s
    else PaintColumn(PaintColumns(s, w, h, x0, xEnd - 1, y0, yEnd, c), w, h, xEnd - 1, y0, yEnd, c)
  }

  /** The field after painting the rectangle at (x0, y0) of size rw x rh with `c`. */
  function PaintRect(s: seq<real>, w: nat, h: nat, x0: nat, y0: nat, rw: nat, rh: nat, c: Cell): (r: seq<real>)
    requires |s| == w * h * 3 && x0 + rw <= w && y0 + rh <= h
  {
    PaintColumns(s, w, h, x0, x0 + rw, y0, y0 + rh, c)
  }

  /** One more row of a column is one more cell write, at the cell's flat position, as three stores. */
  lemma PaintColumnStep(s: seq<real>, w: nat, h: nat, x: nat, y0: nat, y: nat, c: Cell)
    requires |s| == w * h * 3 && x < w && y0 <= y < h
    ensures CellIndex(x, y, w) * 3 + 3 <= |s|
    ensures var p, i := PaintColumn(s, w, h, x, y0, y, c), CellIndex(x, y, w) * 3;
      PaintColumn(s, w, h, x, y0, y + 1, c) == p[i := c.height][i + 1 := c.velocity][i + 2 := c.mass]
  {
    CellInField(x, y, w, h);
  }

  /** Flat position pos is cell (x, y) of a `w`-wide grid exactly when it decodes to column x and row y. */
  lemma CellCoordinates(pos: nat, x: nat, y: nat, w: nat)
    requires x < w
    ensures pos == CellIndex(x, y, w) <==> pos % w == x && pos / w == y
  {
  }

  lemma {:induction false} PaintColumnAt(s: seq<real>, w: nat, h: nat, x: nat, y0: nat, yEnd: nat, c: Cell, k: nat)
    requires |s| == w * h * 3 && x < w && yEnd <= h && k < |s|
    ensures PaintColumn(s, w, h, x, y0, yEnd, c)[k]
         == if (k / 3) % w == x && y0 <= (k / 3) / w < yEnd then c.Channel(k % 3) else s[k]
    decreases yEnd
  {
    if yEnd > y0 {
      PaintColumnAt(s, w, h, x, y0, yEnd - 1, c, k);
      CellCoordinates(k / 3, x, yEnd - 1, w);
    }
  }

  lemma {:induction false} PaintColumnsAt(s: seq<real>, w: nat, h: nat, x0: nat, xEnd: nat, y0: nat, yEnd: nat, c: Cell, k: nat)
    requires |s| == w * h * 3 && xEnd <= w && yEnd <= h && k < |s|
    ensures PaintColumns(s, w, h, x0, xEnd, y0, yEnd, c)[k]
         == if w > 0 && x0 <= (k / 3) % w < xEnd && y0 <= (k / 3) / w < yEnd then c.Channel(k % 3) else s[k]
    decreases xEnd
  {
    RowInField(k / 3, w, h);
    if xEnd > x0 {
      var prev := PaintColumns(s, w, h, x0, xEnd - 1, y0, yEnd, c);
      PaintColumnsAt(s, w, h, x0, xEnd - 1, y0, yEnd, c, k);
      PaintColumnAt(prev, w, h, xEnd - 1, y0, yEnd, c, k);
    }
  }

  /**
   * rect writes `c` into exactly the cells of the rectangle and leaves every
   * other entry of the array as it was.
   */
  lemma RectPaintsExactlyRegion(s: seq<real>, w: nat, h: nat, x0: nat, y0: nat, rw: nat, rh: nat, c: Cell)
    requires |s| == w * h * 3 && x0 + rw <= w && y0 + rh <= h
    ensures |PaintRect(s, w, h, x0, y0, rw, rh, c)| == |s|
    ensures forall k :: 0 <= k < |s| ==>
      PaintRect(s, w, h, x0, y0, rw, rh, c)[k] == if InRect(k / 3, w, x0, y0, rw, rh) then c.Channel(k % 3) else s[k]
  {
    forall k | 0 <= k < |s|
      ensures PaintRect(s, w, h, x0, y0, rw, rh, c)[k] == if InRect(k / 3, w, x0, y0, rw, rh) then c.Channel(k % 3) else s[k]
    {
      PaintColumnsAt(s, w, h, x0, x0 + rw, y0, y0 + rh, c, k);
    }
  }

  /**
   * The same statement per cell: cell (x, y), at array index (x + y*W)*3,
   * holds (height, velocity, mass) of `c` when it lies in the rectangle and
   * its old three values otherwise.
   */
  lemma RectCellValues(s: seq<real>, w: nat, h: nat, x0: nat, y0: nat, rw: nat, rh: nat, c: Cell, x: nat, y: nat)
    requires |s| == w * h * 3 && x0 + rw <= w && y0 + rh <= h
    requires x < w && y < h
    ensures CellIndex(x, y, w) * 3 + 3 <= |s|
    ensures var r, i := PaintRect(s, w, h, x0, y0, rw, rh, c), CellIndex(x, y, w) * 3;
      if x0 <= x < x0 + rw && y0 <= y < y0 + rh
      then r[i] == c.height && r[i + 1] == c.velocity && r[i + 2] == c.mass
      else r[i..i + 3] == s[i..i + 3]
  {
    CellInField(x, y, w, h);
    var pos := CellIndex(x, y, w);
    var i := pos * 3;
    RectPaintsExactlyRegion(s, w, h, x0, y0, rw, rh, c);
    assert i / 3 == pos && (i + 1) / 3 == pos && (i + 2) / 3 == pos;
  }

  /** Painting a region with c1 and then the same region with c2 leaves what painting with c2 alone leaves. */
  lemma RectLastWriteWins(s: seq<real>, w: nat, h: nat, x0: nat, y0: nat, rw: nat, rh: nat, c1: Cell, c2: Cell)
    requires |s| == w * h * 3 && x0 + rw <= w && y0 + rh <= h
    ensures PaintRect(PaintRect(s, w, h, x0, y0, rw, rh, c1), w, h, x0, y0, rw, rh, c2)
         == PaintRect(s, w, h, x0, y0, rw, rh, c2)
  {
    var once := PaintRect(s, w, h, x0, y0, rw, rh, c1);
    RectPaintsExactlyRegion(s, w, h, x0, y0, rw, rh, c1);
    RectPaintsExactlyRegion(once, w, h, x0, y0, rw, rh, c2);
    RectPaintsExactlyRegion(s, w, h, x0, y0, rw, rh, c2);
  }

  /** rect is idempotent: painting the same region with the same values twice equals painting it once. */
  lemma RectIdempotent(s: seq<real>, w: nat, h: nat, x0: nat, y0: nat, rw: nat, rh: nat, c: Cell)
    requires |s| == w * h * 3 && x0 + rw <= w && y0 + rh <= h
    ensures PaintRect(PaintRect(s, w, h, x0, y0, rw, rh, c), w, h, x0, y0, rw, rh, c)
         == PaintRect(s, w, h, x0, y0, rw, rh, c)
  {
    RectLastWriteWins(s, w, h, x0, y0, rw, rh, c, c);
  }

  /** The initial field: `cells` default cells (height 0, velocity 0, mass 1). */
  function InitialField(cells: nat): (s: seq<real>)
    ensures |s| == cells * 3
    ensures forall i :: 0 <= i < cells ==> s[3 * i] == 0.0 && s[3 * i + 1] == 0.0 && s[3 * i + 2] == 1.0
  {
    seq(cells * 3, k => DefaultCell.Channel(k % 3))
  }

  /** An array whose every cell holds (0, 0, 1) is the initial field. */
  lemma InitialFieldByCells(s: seq<real>, cells: nat)
    requires |s| == cells * 3
    requires forall j :: 0 <= j < cells ==> s[3 * j] == 0.0 && s[3 * j + 1] == 0.0 && s[3 * j + 2] == 1.0
    ensures s == InitialField(cells)
  {
    forall k | 0 <= k < |s|
      ensures s[k] == InitialField(cells)[k]
    {
      var j := k / 3;
      assert k == 3 * j + k % 3;
    }
  }

  /**
   * The initial field is what painting the whole W x H grid with the default
   * cell gives, whatever the array held before.
   */
  lemma InitialFieldIsWholeGridPaint(s: seq<real>, w: nat, h: nat)
    requires |s| == w * h * 3
    ensures PaintRect(s, w, h, 0, 0, w, h, DefaultCell) == InitialField(w * h)
  {
    RectPaintsExactlyRegion(s, w, h, 0, 0, w, h, DefaultCell);
    forall k | 0 <= k < |s|
      ensures InRect(k / 3, w, 0, 0, w, h)
    {
      RowInField(k / 3, w, h);
    }
  }
}

=== FILE: layout.dfy ===
/**
 * Grid geometry of the wave renderer: the field resolution derived from the
 * canvas size, the flat index of a cell, the compute dispatch size and the
 * full-screen quad drawn by the render pass.
 */
module Layout {

  /** Float channels stored per cell: height, velocity, mass. */
  const ParamsCount: nat := 3

  /** Side of the square compute workgroup tile (8 x 8 invocations). */
  const WorkgroupSize: nat := 8

  /** The value a Uint32Array element receives for an integer: reduction modulo 2^32. */
  function ToUint32(n: int): (r: nat)
    ensures r < 0x1_0000_0000
    ensures 0 <= n < 0x1_0000_0000 ==> r == n
  {
    n % 0x1_0000_0000
  }

  /** Euclidean division is unique: x + y*w splits back into remainder x and quotient y. */
  lemma DivModUnique(pos: int, x: int, y: int, w: int)
    requires 0 <= x < w && pos == x + y * w
    ensures pos / w == y && pos % w == x
  {
    var q, r := pos / w, pos % w;
    assert pos == q * w + r;
    assert (y - q) * w == r - x;
    if q < y {
      MulAtLeast(y - q, w);
    } else if y < q {
      MulAtLeast(q - y, w);
    }
  }

  /** k >= 1 copies of w > 0 add up to at least w. */
  lemma MulAtLeast(k: int, w: int)
    requires k >= 1 && w > 0
    ensures k * w >= w
  {
    assert k * w == (k - 1) * w + w;
  }

  /**
   * Field grid (W, H): half the canvas size on each axis, rounded down, so
   * that every field cell covers a 2 x 2 block of canvas pixels.
   */
  function FieldResolution(canvasWidth: nat, canvasHeight: nat): (r: (nat, nat))
    ensures 2 * r.0 <= canvasWidth < 2 * r.0 + 2
    ensures 2 * r.1 <= canvasHeight < 2 * r.1 + 2
  {
    (canvasWidth / 2, canvasHeight / 2)
  }

  /**
   * The field resolution as the constructor computes it: a float division of
   * the canvas size, which leaves a half cell when a side is odd.
   */
  function FieldResolutionAsWritten(canvasWidth: nat, canvasHeight: nat): (r: (real, real))
    ensures r.0 + r.0 == canvasWidth as real && r.1 + r.1 == canvasHeight as real
  {
    (canvasWidth as real / 2.0, canvasHeight as real / 2.0)
  }

  /** The flat position `x + y * stride` that rect computes, in the float arithmetic of the source. */
  function CellPositionAsWritten(x: nat, y: nat, stride: real): real
  {
    x as real + y as real * stride
  }

  /**
   * Flat position of cell (x, y) in a row-major grid `w` cells wide. The
   * position decodes back to the same column and row, so the host and the
   * shaders, which both see the width `w`, agree on where a cell lives.
   */
  function CellIndex(x: nat, y: nat, w: nat): (pos: nat)
    requires x < w
    ensures pos % w == x && pos / w == y
  {
    DivModUnique(x + y * w, x, y, w);
    x + y * w
  }

  /** A cell inside a W x H grid has a flat position below W * H. */
  lemma CellInField(x: nat, y: nat, w: nat, h: nat)
    requires x < w && y < h
    ensures CellIndex(x, y, w) < w * h
  {
    assert x + y * w < w + y * w == (y + 1) * w;
    if y + 1 < h {
      MulAtLeast(h - (y + 1), w);
      assert (h - (y + 1)) * w + (y + 1) * w == h * w;
    }
  }

  /** A flat position below W * H decodes to a row below H. */
  lemma RowInField(pos: nat, w: nat, h: nat)
    requires pos < w * h
    ensures w > 0 && pos / w < h
  {
  }

  /** Number of tiles of `size` cells needed to cover `n` cells, that is ceil(n / size). */
  function WorkgroupCount(n: nat, size: nat): (c: nat)
    requires size > 0
    ensures c * size >= n
    ensures (c - 1) * size < n
  {
    var c := (n + size - 1) / size;
    assert n + size - 1 == c * size + (n + size - 1) % size;
    assert (c - 1) * size == c * size - size;
    c
  }

  /** The two covering bounds of WorkgroupCount pin the count down: it is the only such value. */
  lemma WorkgroupCountUnique(n: nat, size: nat, c: nat)
    requires size > 0
    ensures c == WorkgroupCount(n, size) <==> c * size >= n && (c - 1) * size < n
  {
    var k := WorkgroupCount(n, size);
    if c * size >= n && (c - 1) * size < n {
      if c > k {
        MulAtLeast(c - k, size);
      } else if c < k {
        assert (k - 1) * size == (k - 1 - c) * size + c * size;
        if k - 1 > c {
          MulAtLeast(k - 1 - c, size);
        }
      }
    }
  }

  /** Every cell column (or row) x of an n-cell axis falls into one of the dispatched tiles. */
  lemma TilesCoverField(n: nat, size: nat, x: nat)
    requires size > 0 && x < n
    ensures x / size < WorkgroupCount(n, size)
  {
    var c := WorkgroupCount(n, size);
    var t := x / size;
    assert x == t * size + x % size;
    if t >= c {
      assert t * size == (t - c) * size + c * size;
      if t > c {
        MulAtLeast(t - c, size);
      }
    }
  }

  /** Workgroup grid dispatched by both compute passes, per axis of the field. */
  function Dispatch(fieldResolution: (nat, nat)): (d: (nat, nat))
    ensures d.0 * WorkgroupSize >= fieldResolution.0 && (d.0 - 1) * WorkgroupSize < fieldResolution.0
    ensures d.1 * WorkgroupSize >= fieldResolution.1 && (d.1 - 1) * WorkgroupSize < fieldResolution.1
  {
    (WorkgroupCount(fieldResolution.0, WorkgroupSize), WorkgroupCount(fieldResolution.1, WorkgroupSize))
  }

  /** Concrete sizes: 8 cells take one tile, 9 take two; a 640 x 480 canvas gives a 320 x 240 field. */
  lemma DispatchExamples()
    ensures Dispatch((8, 8)) == (1, 1) && Dispatch((9, 9)) == (2, 2)
    ensures FieldResolution(640, 480) == (320, 240)
    ensures 320 * 240 * ParamsCount == 230400
    ensures Dispatch((320, 240)) == (40, 30)
  {
    WorkgroupCountUnique(8, 8, 1);
    WorkgroupCountUnique(9, 8, 2);
    WorkgroupCountUnique(320, 8, 40);
    WorkgroupCountUnique(240, 8, 30);
  }

  /**
   * With an odd canvas width the constructor's float division gives a row
   * stride of 320.5 while the field-resolution uniform holds 320: the cell
   * rect means as (0, 2) lands on the shader's cell (1, 2), and cell (0, 1)
   * has no integral array position at all.
   */
  lemma OddCanvasWidthMisplacesCells()
    ensures FieldResolutionAsWritten(641, 480) == (320.5, 240.0)
    ensures ToUint32((320.5).Floor) == 320
    ensures CellPositionAsWritten(0, 2, 320.5) == CellIndex(1, 2, 320) as real
    ensures CellPositionAsWritten(0, 2, 320.5) != CellIndex(0, 2, 320) as real
    ensures CellPositionAsWritten(0, 1, 320.5) != (CellPositionAsWritten(0, 1, 320.5)).Floor as real
  {
  }

  /**
   * With the integer field resolution the stride the host indexes with is the
   * value the uniform holds, for every canvas a Uint32Array can describe.
   */
  lemma FieldResolutionFitsUniform(canvasWidth: nat, canvasHeight: nat)
    requires canvasWidth < 0x1_0000_0000 && canvasHeight < 0x1_0000_0000
    ensures ToUint32(FieldResolution(canvasWidth, canvasHeight).0) == FieldResolution(canvasWidth, canvasHeight).0
    ensures ToUint32(FieldResolution(canvasWidth, canvasHeight).1) == FieldResolution(canvasWidth, canvasHeight).1
  {
  }

  /** Vertex positions of the full-screen quad: two triangles, two floats per vertex. */
  function QuadVertices(): (q: seq<real>)
    ensures |q| == 12
    ensures forall i :: 0 <= i < |q| ==> -1.0 <= q[i] <= 1.0
    // the two triangles share the diagonal from (-1, -1) to (1, 1)
    ensures q[0] == q[6] == -1.0 && q[1] == q[7] == -1.0 && q[4] == q[8] == 1.0 && q[5] == q[9] == 1.0
  {
    [-1.0, -1.0,
      1.0, -1.0,
      1.0, 1.0,
     -1.0, -1.0,
      1.0, 1.0,
     -1.0, 1.0]
  }

  /** Vertices the render pass draws: the quad array length divided by two floats per vertex. */
  const QuadVertexCount: nat := |QuadVertices()| / 2
}

=== FILE: renderer.dfy ===
/**
 * The renderer object: its sizes, the host arrays it fills, the step
 * counter, and the methods that initialise the field, paint rectangles and
 * issue each frame's GPU work. The GPU device and its queue are replaced by
 * `trace`, the sequence of commands issued so far.
 */
module WaveRenderer {
  import opened Layout
  import opened Field
  import opened Bindings
  import opened Schedule

  class Renderer {
    /** Canvas size in pixels. */
    const resolution: (nat, nat)
    /** Field grid size (W, H). */
    const fieldResolution: (nat, nat)
    const paramsCount: nat := ParamsCount
    const workgroupSize: nat := WorkgroupSize
    /** Workgroup grid of both compute passes. */
    const workgroupProcessFieldCount: (nat, nat)

    /** Simulation step: the number of updates so far. */
    var step: nat

    var vertexArray: array<real>
    var uniformTimeArray: array<real>
    var uniformResolutionArray: array<int>
    var uniformFieldResolutionArray: array<int>
    /** W * H cells, three floats each: height, velocity, mass. */
    var fieldStateArray: array<real>

    var bindGroups: seq<BindGroup>

    /** Every command given to the device so far, in order. */
    var trace: seq<Command>

    /**
     * The state `init` leaves when it succeeds: arrays of their final sizes,
     * the canvas and field resolutions in their Uint32 uniforms, and the two
     * bind groups.
     */
    ghost predicate Initialized()
      reads this, uniformResolutionArray, uniformFieldResolutionArray
    {
      vertexArray.Length == |QuadVertices()| &&
      uniformTimeArray.Length == 1 &&
      uniformResolutionArray.Length == 2 &&
      uniformFieldResolutionArray.Length == 2 &&
      uniformResolutionArray[..] == [ToUint32(resolution.0), ToUint32(resolution.1)] &&
      uniformFieldResolutionArray[..] == [ToUint32(fieldResolution.0), ToUint32(fieldResolution.1)] &&
      fieldStateArray.Length == fieldResolution.0 * fieldResolution.1 * paramsCount &&
      vertexArray != uniformTimeArray && vertexArray != fieldStateArray && uniformTimeArray != fieldStateArray &&
      bindGroups == BindGroupTable()
    }

    /** The field state as a sequence. */
    ghost function FieldState(): seq<real>
      reads this, fieldStateArray
    {
      fieldStateArray[..]
    }

    /** Sizes and counters only; the arrays are empty until `init` creates them. */
    constructor (canvasWidth: nat, canvasHeight: nat)
      ensures step == 0 && trace == []
      ensures resolution == (canvasWidth, canvasHeight)
      ensures fieldResolution == FieldResolution(canvasWidth, canvasHeight)
      ensures workgroupProcessFieldCount == Dispatch(fieldResolution)
    {
      step := 0;
      var field := FieldResolution(canvasWidth, canvasHeight);
      fieldResolution := field;
      resolution := (canvasWidth, canvasHeight);
      workgroupProcessFieldCount := (WorkgroupCount(field.0, workgroupSize), WorkgroupCount(field.1, workgroupSize));
      vertexArray := new real[0];
      uniformTimeArray := new real[0];
      uniformResolutionArray := new int[0];
      uniformFieldResolutionArray := new int[0];
      fieldStateArray := new real[0];
      bindGroups := [];
      trace := [];
    }

    /**
     * `init`: when a GPU device is available, create the arrays and the bind
     * groups and report success; otherwise change nothing and report failure.
     */
    method Init(deviceAvailable: bool) returns (ok: bool)
      modifies this
      ensures ok == deviceAvailable
      ensures step == old(step) && trace == old(trace)
      ensures ok ==> Initialized()
      ensures ok ==> fresh(vertexArray) && fresh(uniformTimeArray) && fresh(fieldStateArray)
      ensures ok ==> fresh(uniformResolutionArray) && fresh(uniformFieldResolutionArray)
      ensures ok ==> vertexArray[..] == QuadVertices() && uniformTimeArray[..] == [0.0]
      ensures ok ==> FieldState() == InitialField(fieldResolution.0 * fieldResolution.1)
      ensures !ok ==> unchanged(this)
    {
      if deviceAvailable {
        CreateArrays();
        CreateBindings();
        ok := true;
      } else {
        ok := false;
      }
    }

    /** `createArrays`: the quad, the uniforms' host copies and the initialised field. */
    method CreateArrays()
      modifies this`vertexArray, this`uniformTimeArray, this`uniformResolutionArray,
               this`uniformFieldResolutionArray, this`fieldStateArray
      ensures fresh(vertexArray) && fresh(uniformTimeArray) && fresh(uniformResolutionArray)
      ensures fresh(uniformFieldResolutionArray) && fresh(fieldStateArray)
      ensures vertexArray != uniformTimeArray && vertexArray != fieldStateArray && uniformTimeArray != fieldStateArray
      ensures fieldStateArray.Length == fieldResolution.0 * fieldResolution.1 * paramsCount
      ensures vertexArray[..] == QuadVertices()
      ensures uniformTimeArray[..] == [0.0]
      ensures uniformResolutionArray[..] == [ToUint32(resolution.0), ToUint32(resolution.1)]
      ensures uniformFieldResolutionArray[..] == [ToUint32(fieldResolution.0), ToUint32(fieldResolution.1)]
      ensures FieldState() == InitialField(fieldResolution.0 * fieldResolution.1)
    {
      vertexArray := Float32ArrayOf(QuadVertices());
      uniformTimeArray := Float32ArrayOf([0.0]);
      uniformResolutionArray := Uint32ArrayOf(resolution);
      uniformFieldResolutionArray := Uint32ArrayOf(fieldResolution);
      fieldStateArray := new real[fieldResolution.0 * fieldResolution.1 * paramsCount](_ => 0.0);
      InitField();
    }

    /** `createBindings`: group A, and group B built as a copy of A with slots 3 and 4 swapped. */
    method CreateBindings()
      modifies this`bindGroups
      ensures bindGroups == BindGroupTable()
    {
      var entries := GroupAEntries();
      var entries2 := GroupBEntries(entries);
      bindGroups := [entries, entries2];
    }

    /** `initField`: every cell becomes (height 0, velocity 0, mass 1). */
    method InitField()
      requires fieldStateArray.Length == fieldResolution.0 * fieldResolution.1 * paramsCount
      modifies fieldStateArray
      ensures FieldState() == InitialField(fieldResolution.0 * fieldResolution.1)
    {
      var cells := fieldResolution.0 * fieldResolution.1;
      var i := 0;
      while i < cells
        invariant 0 <= i <= cells
        invariant forall j :: 0 <= j < i ==>
          fieldStateArray[3 * j] == 0.0 && fieldStateArray[3 * j + 1] == 0.0 && fieldStateArray[3 * j + 2] == 1.0
      {
        var idx := i * 3;
        fieldStateArray[idx] := 0.0;
        fieldStateArray[idx + 1] := 0.0;
        fieldStateArray[idx + 2] := 1.0;
        i := i + 1;
      }
      InitialFieldByCells(FieldState(), cells);
    }

    /**
     * `rect`: overwrite the cells (x, y) with x in [x0, x0 + w) and y in
     * [y0, y0 + h) by (height, vel, mass). It touches only the field array,
     * so it may run as soon as that array exists, before the bind groups and
     * the upload. The caller keeps the rectangle inside the field.
     */
    method Rect(rectPos: (nat, nat), size: (nat, nat), vel: real, mass: real, height: real)
      requires fieldStateArray.Length == fieldResolution.0 * fieldResolution.1 * paramsCount
      requires rectPos.0 + size.0 <= fieldResolution.0 && rectPos.1 + size.1 <= fieldResolution.1
      modifies fieldStateArray
      ensures FieldState() == PaintRect(old(FieldState()), fieldResolution.0, fieldResolution.1,
                                   rectPos.0, rectPos.1, size.0, size.1, Cell(height, vel, mass))
    {
      ghost var s0 := FieldState();
      ghost var c := Cell(height, vel, mass);
      var w, h := fieldResolution.0, fieldResolution.1;
      var x := rectPos.0;
      while x < rectPos.0 + size.0
        invariant rectPos.0 <= x <= rectPos.0 + size.0
        invariant FieldState() == PaintColumns(s0, w, h, rectPos.0, x, rectPos.1, rectPos.1 + size.1, c)
      {
        ghost var before := FieldState();
        var y := rectPos.1;
        while y < rectPos.1 + size.1
          invariant rectPos.1 <= y <= rectPos.1 + size.1
          invariant FieldState() == PaintColumn(before, w, h, x, rectPos.1, y, c)
        {
          PaintColumnStep(before, w, h, x, rectPos.1, y, c);
          ghost var prev := FieldState();
          var pos := CellIndex(x, y, fieldResolution.0);
          var idx := pos * 3;
          fieldStateArray[idx] := height;
          fieldStateArray[idx + 1] := vel;
          fieldStateArray[idx + 2] := mass;
          assert FieldState() == prev[idx := height][idx + 1 := vel][idx + 2 := mass];
          y := y + 1;
        }
        x := x + 1;
      }
    }

    /** `updateField`: one updateField compute pass bound to group `step % 2`. */
    method UpdateField()
      requires Initialized()
      modifies this`trace
      ensures trace == old(trace) + [ComputePass(UpdateFieldKernel, GroupAt(step), workgroupProcessFieldCount)]
    {
      trace := trace + [ComputePass(UpdateFieldKernel, bindGroups[step % 2], workgroupProcessFieldCount)];
    }

    /** `processField`: one processField compute pass bound to group `step % 2`. */
    method ProcessField()
      requires Initialized()
      modifies this`trace
      ensures trace == old(trace) + [ComputePass(ProcessFieldKernel, GroupAt(step), workgroupProcessFieldCount)]
    {
      trace := trace + [ComputePass(ProcessFieldKernel, bindGroups[step % 2], workgroupProcessFieldCount)];
    }

    /** `render`: clear, bind group `step % 2`, draw the quad's vertices. */
    method Render()
      requires Initialized()
      modifies this`trace
      ensures trace == old(trace) + [RenderPass(ClearColor, GroupAt(step), QuadVertexCount)]
    {
      trace := trace + [RenderPass(ClearColor, bindGroups[step % 2], vertexArray.Length / 2)];
    }

    /** `start`: render the current field and submit, with no compute pass. */
    method Start()
      requires Initialized()
      modifies this`trace
      ensures trace == old(trace) + StartCommands(step)
    {
      Render();
      trace := trace + [Submit];
    }

    /**
     * `update`: one frame. updateField with the old step's group, step + 1,
     * processField and render with the new step's group, submit, then the
     * new step is stored as simulation time and written to its buffer.
     */
    method Update()
      requires Initialized()
      modifies this`step, this`trace, uniformTimeArray
      ensures Initialized()
      ensures step == old(step) + 1
      ensures trace == old(trace) + FrameCommands(old(step), workgroupProcessFieldCount)
      ensures uniformTimeArray[..] == [step as real]
      ensures FieldState() == old(FieldState())
    {
      UpdateField();
      step := step + 1;
      ProcessField();
      Render();
      trace := trace + [Submit];
      uniformTimeArray[0] := step as real;
      trace := trace + [WriteSimTime(uniformTimeArray[0])];
    }
  }

  /** `new Float32Array(values)`: a fresh array holding `values`. */
  method Float32ArrayOf(values: seq<real>) returns (a: array<real>)
    ensures fresh(a) && a[..] == values
  {
    a := new real[|values|](i requires 0 <= i < |values| => values[i]);
  }

  /** `new Uint32Array(pair)`: a fresh two-element array holding both components reduced modulo 2^32. */
  method Uint32ArrayOf(pair: (nat, nat)) returns (a: array<int>)
    ensures fresh(a) && a[..] == [ToUint32(pair.0), ToUint32(pair.1)]
  {
    a := new int[2];
    a[0], a[1] := ToUint32(pair.0), ToUint32(pair.1);
  }

  /**
   * The program's life: construct a renderer for the canvas, initialise it,
   * and when that succeeds start it and run `frames` animation frames, each
   * one `update`. Returns whether it started, the commands the device
   * received, the final step and the simulation time held by the host.
   */
  method StartAndAnimate(canvasWidth: nat, canvasHeight: nat, deviceAvailable: bool, frames: nat)
    returns (started: bool, trace: seq<Command>, step: nat, simTime: real)
    ensures started == deviceAvailable
    ensures !started ==> trace == [] && step == 0
    ensures started ==> step == frames && simTime == frames as real
    ensures started ==> trace == Session(frames, Dispatch(FieldResolution(canvasWidth, canvasHeight)))
  {
    var r := new Renderer(canvasWidth, canvasHeight);
    started := r.Init(deviceAvailable);
    simTime := 0.0;
    if started {
      r.Start();
      assert r.trace == Session(0, r.workgroupProcessFieldCount);
      var i := 0;
      while i < frames
        invariant 0 <= i <= frames
        invariant r.Initialized() && fresh(r.uniformTimeArray)
        invariant r.step == i
        invariant r.trace == Session(i, r.workgroupProcessFieldCount)
        invariant r.uniformTimeArray[..] == [i as real]
      {
        r.Update();
        SessionExtend(i, r.workgroupProcessFieldCount);
        i := i + 1;
      }
      simTime := r.uniformTimeArray[0];
    }
    trace, step := r.trace, r.step;
  }
}

=== FILE: schedule.dfy ===
/**
 * The GPU work the frame scheduler issues, as a trace of commands. `start`
 * records one render pass and submits it; every `update` records the
 * updateField and processField compute passes and a render pass, submits
 * them, and writes the new simulation time to its uniform buffer.
 */
module Schedule {
  import opened Layout
  import opened Bindings

  /** The two compute entry points of the compute shader module. */
  datatype Kernel = UpdateFieldKernel | ProcessFieldKernel

  /** RGBA colour the render pass clears its target to. */
  datatype Color = Color(r: real, g: real, b: real, a: real)

  const ClearColor: Color := Color(0.0, 0.0, 0.4, 1.0)

  /** One command the renderer gives the device, in the order it gives them. */
  datatype Command =
    | ComputePass(kernel: Kernel, group: BindGroup, workgroups: (nat, nat))
    | RenderPass(clear: Color, group: BindGroup, vertexCount: nat)
    | Submit
    | WriteSimTime(value: real)

  predicate IsSubmit(c: Command) { c.Submit? }
  predicate IsCompute(c: Command) { c.ComputePass? }
  predicate IsRender(c: Command) { c.RenderPass? }

  /** Commands `start` issues at a given step: a render of the current field, then a submit. */
  function StartCommands(step: nat): seq<Command>
  {
    [RenderPass(ClearColor, GroupAt(step), QuadVertexCount), Submit]
  }

  /**
   * Commands one `update` issues when the step counter holds `step` on entry:
   * updateField with the group of `step`, then (after the increment)
   * processField and the render pass with the group of `step + 1`, the
   * submit, and the write of the new simulation time.
   */
  function FrameCommands(step: nat, workgroups: (nat, nat)): seq<Command>
  {
    [ComputePass(UpdateFieldKernel, GroupAt(step), workgroups),
     ComputePass(ProcessFieldKernel, GroupAt(step + 1), workgroups),
     RenderPass(ClearColor, GroupAt(step + 1), QuadVertexCount),
     Submit,
     WriteSimTime((step + 1) as real)]
  }

  /** Commands of `n` consecutive updates entered with steps first, first + 1, ... */
  function Frames(first: nat, n: nat, workgroups: (nat, nat)): seq<Command>
    decreases n
  {
    if n == 0 then [] else Frames(first, n - 1, workgroups) + FrameCommands(first + n - 1, workgroups)
  }

  /** Everything a renderer issues when it is started at step 0 and then updated `n` times. */
  function Session(n: nat, workgroups: (nat, nat)): seq<Command>
  {
    StartCommands(0) + Frames(0, n, workgroups)
  }

  /** One more update appends its frame commands to the session. */
  lemma SessionExtend(n: nat, workgroups: (nat, nat))
    ensures Session(n + 1, workgroups) == Session(n, workgroups) + FrameCommands(n, workgroups)
  {
    assert Frames(0, n + 1, workgroups) == Frames(0, n, workgroups) + FrameCommands(n, workgroups);
  }

  /** Number of commands of `t` that satisfy `p`. */
  function Count(t: seq<Command>, p: Command -> bool): nat
    decreases |t|
  {
    if t == [] then 0 else Count(t[..|t| - 1], p) + (if p(t[|t| - 1]) then 1 else 0)
  }

  /** The values written to the simulation-time uniform, in order. */
  function SimTimes(t: seq<Command>): seq<real>
    decreases |t|
  {
    if t == [] then []
    else SimTimes(t[..|t| - 1]) + (if t[|t| - 1].WriteSimTime? then [t[|t| - 1].value] else [])
  }

  lemma {:induction false} CountAppend(a: seq<Command>, b: seq<Command>, p: Command -> bool)
    ensures Count(a + b, p) == Count(a, p) + Count(b, p)
    decreases |b|
  {
    if b != [] {
      assert (a + b)[..|a + b| - 1] == a + b[..|b| - 1];
      CountAppend(a, b[..|b| - 1], p);
    } else {
      assert a + b == a;
    }
  }

  lemma {:induction false} SimTimesAppend(a: seq<Command>, b: seq<Command>)
    ensures SimTimes(a + b) == SimTimes(a) + SimTimes(b)
    decreases |b|
  {
    if b != [] {
      assert (a + b)[..|a + b| - 1] == a + b[..|b| - 1];
      SimTimesAppend(a, b[..|b| - 1]);
    } else {
      assert a + b == a;
    }
  }

  /**
   * Within one update the two compute passes bind opposite groups:
   * processField reads the buffer updateField wrote and writes the one
   * updateField read, and the render pass then reads updateField's output.
   */
  lemma FrameParity(step: nat, workgroups: (nat, nat))
    ensures var f := FrameCommands(step, workgroups);
      f[0].group != f[1].group &&
      Target(f[0].group) == Source(f[1].group) &&
      Target(f[1].group) == Source(f[0].group) &&
      Source(f[2].group) == Target(f[0].group)
  {
    PingPong(step);
  }

  /**
   * Across updates: the buffer the processField pass of one update wrote is
   * the one the next update's updateField writes again and the one its
   * render pass then binds as source.
   */
  lemma RenderReadsPreviousProcessTarget(step: nat, workgroups: (nat, nat))
    ensures Target(FrameCommands(step + 1, workgroups)[0].group) == Target(FrameCommands(step, workgroups)[1].group)
    ensures Source(FrameCommands(step + 1, workgroups)[2].group) == Target(FrameCommands(step, workgroups)[1].group)
  {
    PingPong(step + 1);
  }

  /** Block i of five commands of `prev + last`, where `prev` holds m blocks and `last` one more. */
  lemma BlockOfAppend(prev: seq<Command>, last: seq<Command>, m: nat, i: nat)
    requires |prev| == 5 * m && |last| == 5 && i <= m
    ensures i < m ==> (prev + last)[5 * i .. 5 * i + 5] == prev[5 * i .. 5 * i + 5]
    ensures i == m ==> (prev + last)[5 * i .. 5 * i + 5] == last
  {
  }

  /** Commands of update number i (counting from 0) occupy positions 5i .. 5i+4 of the frames trace. */
  lemma {:induction false} FramesAt(first: nat, n: nat, workgroups: (nat, nat), i: nat)
    requires i < n
    ensures |Frames(first, n, workgroups)| == 5 * n
    ensures Frames(first, n, workgroups)[5 * i .. 5 * i + 5] == FrameCommands(first + i, workgroups)
    decreases n
  {
    var prev, last := Frames(first, n - 1, workgroups), FrameCommands(first + n - 1, workgroups);
    assert Frames(first, n, workgroups) == prev + last;
    FramesLength(first, n - 1, workgroups);
    if i < n - 1 {
      FramesAt(first, n - 1, workgroups, i);
      BlockOfAppend(prev, last, n - 1, i);
    } else {
      BlockOfAppend(prev, last, n - 1, i);
      assert last == FrameCommands(first + i, workgroups);
    }
  }

  lemma {:induction false} FramesLength(first: nat, n: nat, workgroups: (nat, nat))
    ensures |Frames(first, n, workgroups)| == 5 * n
    decreases n
  {
    if n > 0 {
      FramesLength(first, n - 1, workgroups);
    }
  }

  /** Counting over the five commands of one update, one command at a time. */
  lemma CountFrame(step: nat, workgroups: (nat, nat), p: Command -> bool)
    ensures var f := FrameCommands(step, workgroups);
      Count(f, p) == (if p(f[0]) then 1 else 0) + (if p(f[1]) then 1 else 0) + (if p(f[2]) then 1 else 0)
                   + (if p(f[3]) then 1 else 0) + (if p(f[4]) then 1 else 0)
  {
    var f := FrameCommands(step, workgroups);
    assert f[..4][..3] == f[..3] && f[..3][..2] == f[..2] && f[..2][..1] == f[..1] && f[..1][..0] == [];
    assert Count(f[..1], p) == (if p(f[0]) then 1 else 0);
    assert Count(f[..2], p) == Count(f[..1], p) + (if p(f[1]) then 1 else 0);
    assert Count(f[..3], p) == Count(f[..2], p) + (if p(f[2]) then 1 else 0);
    assert Count(f[..4], p) == Count(f[..3], p) + (if p(f[3]) then 1 else 0);
  }

  /** One update issues one submit, two compute passes and one render pass. */
  lemma FrameCounts(step: nat, workgroups: (nat, nat))
    ensures Count(FrameCommands(step, workgroups), IsSubmit) == 1
    ensures Count(FrameCommands(step, workgroups), IsCompute) == 2
    ensures Count(FrameCommands(step, workgroups), IsRender) == 1
  {
    CountFrame(step, workgroups, IsSubmit);
    CountFrame(step, workgroups, IsCompute);
    CountFrame(step, workgroups, IsRender);
  }

  lemma MulStep(k: nat, n: nat)
    requires n > 0
    ensures k * n == k * (n - 1) + k
  {
  }

  lemma {:induction false} FramesCount(first: nat, n: nat, workgroups: (nat, nat), p: Command -> bool, k: nat)
    requires forall step: nat :: Count(FrameCommands(step, workgroups), p) == k
    ensures Count(Frames(first, n, workgroups), p) == k * n
    decreases n
  {
    if n > 0 {
      FramesCount(first, n - 1, workgroups, p, k);
      CountAppend(Frames(first, n - 1, workgroups), FrameCommands(first + n - 1, workgroups), p);
      MulStep(k, n);
    }
  }

  /**
   * After start and n updates the device has received n + 1 submissions and
   * n + 1 render passes but only 2n compute passes: the first submission
   * (from start) holds no compute pass.
   */
  lemma SessionCounts(n: nat, workgroups: (nat, nat))
    ensures Count(StartCommands(0), IsCompute) == 0
    ensures Count(Session(n, workgroups), IsSubmit) == n + 1
    ensures Count(Session(n, workgroups), IsRender) == n + 1
    ensures Count(Session(n, workgroups), IsCompute) == 2 * n
  {
    var s := StartCommands(0);
    assert s[..1][..0] == [];
    forall step: nat ensures Count(FrameCommands(step, workgroups), IsSubmit) == 1
      && Count(FrameCommands(step, workgroups), IsCompute) == 2
      && Count(FrameCommands(step, workgroups), IsRender) == 1
    {
      FrameCounts(step, workgroups);
    }
    FramesCount(0, n, workgroups, IsSubmit, 1);
    FramesCount(0, n, workgroups, IsCompute, 2);
    FramesCount(0, n, workgroups, IsRender, 1);
    CountAppend(s, Frames(0, n, workgroups), IsSubmit);
    CountAppend(s, Frames(0, n, workgroups), IsRender);
    CountAppend(s, Frames(0, n, workgroups), IsCompute);
  }

  /** One update writes exactly one simulation time, the old step plus one. */
  lemma FrameSimTimes(step: nat, workgroups: (nat, nat))
    ensures SimTimes(FrameCommands(step, workgroups)) == [(step + 1) as real]
  {
    var f := FrameCommands(step, workgroups);
    assert f[..4][..3] == f[..3] && f[..3][..2] == f[..2] && f[..2][..1] == f[..1] && f[..1][..0] == [];
    assert SimTimes(f[..1]) == [];
    assert SimTimes(f[..2]) == [];
    assert SimTimes(f[..3]) == [];
    assert SimTimes(f[..4]) == [];
  }

  /** The times first + 1, ..., first + n, in order. */
  function TimesFrom(first: nat, n: nat): seq<real>
    decreases n
  {
    if n == 0 then [] else TimesFrom(first, n - 1) + [(first + n) as real]
  }

  lemma {:induction false} TimesFromAt(first: nat, n: nat)
    ensures |TimesFrom(first, n)| == n
    ensures forall i :: 0 <= i < n ==> TimesFrom(first, n)[i] == (first + i + 1) as real
    decreases n
  {
    if n > 0 {
      TimesFromAt(first, n - 1);
    }
  }

  lemma {:induction false} FramesSimTimes(first: nat, n: nat, workgroups: (nat, nat))
    ensures SimTimes(Frames(first, n, workgroups)) == TimesFrom(first, n)
    decreases n
  {
    if n > 0 {
      var prev, f := Frames(first, n - 1, workgroups), FrameCommands(first + n - 1, workgroups);
      FramesSimTimes(first, n - 1, workgroups);
      FrameSimTimes(first + n - 1, workgroups);
      SimTimesAppend(prev, f);
    }
  }

  /**
   * The simulation time written after update number i is i + 1: the values
   * written are 1, 2, ..., n, strictly increasing, and the last one is n.
   */
  lemma SessionSimTimes(n: nat, workgroups: (nat, nat))
    ensures SimTimes(Session(n, workgroups)) == seq(n, i => (i + 1) as real)
    ensures forall i, j :: 0 <= i < j < n ==> SimTimes(Session(n, workgroups))[i] < SimTimes(Session(n, workgroups))[j]
    ensures n > 0 ==> SimTimes(Session(n, workgroups))[n - 1] == n as real
  {
    var s := StartCommands(0);
    assert s[..1][..0] == [];
    FramesSimTimes(0, n, workgroups);
    TimesFromAt(0, n);
    SimTimesAppend(s, Frames(0, n, workgroups));
  }

  /** Every compute or render pass of a trace binds two different buffers as source and target. */
  predicate PingPongSafe(t: seq<Command>)
  {
    forall i :: 0 <= i < |t| && (t[i].ComputePass? || t[i].RenderPass?) ==>
      |t[i].group| == 5 && Source(t[i].group) != Target(t[i].group)
  }

  lemma PingPongSafeAppend(a: seq<Command>, b: seq<Command>)
    requires PingPongSafe(a) && PingPongSafe(b)
    ensures PingPongSafe(a + b)
  {
    forall i | 0 <= i < |a + b| && ((a + b)[i].ComputePass? || (a + b)[i].RenderPass?)
      ensures |(a + b)[i].group| == 5 && Source((a + b)[i].group) != Target((a + b)[i].group)
    {
      if i >= |a| {
        assert (a + b)[i] == b[i - |a|];
      }
    }
  }

  /** The three passes of one update each bind two different field buffers. */
  lemma FramePingPongSafe(step: nat, workgroups: (nat, nat))
    ensures PingPongSafe(FrameCommands(step, workgroups))
  {
    PingPong(step);
    PingPong(step + 1);
  }

  lemma {:induction false} FramesPingPongSafe(first: nat, n: nat, workgroups: (nat, nat))
    ensures PingPongSafe(Frames(first, n, workgroups))
    decreases n
  {
    if n > 0 {
      FramesPingPongSafe(first, n - 1, workgroups);
      FramePingPongSafe(first + n - 1, workgroups);
      PingPongSafeAppend(Frames(first, n - 1, workgroups), FrameCommands(first + n - 1, workgroups));
    }
  }

  /** No pass of a whole session ever reads and writes the same field buffer. */
  lemma SessionPingPongSafe(n: nat, workgroups: (nat, nat))
    ensures PingPongSafe(Session(n, workgroups))
  {
    FramesPingPongSafe(0, n, workgroups);
    PingPong(0);
  }

  /**
   * Start followed by two updates: the start pass and the first update's
   * updateField read field A, and the render of the second update reads
   * the buffer that the first update's processField wrote, which is A.
   */
  lemma TwoUpdatesScenario(workgroups: (nat, nat))
    ensures var t := Session(2, workgroups);
      |t| == 12 &&
      t[0].RenderPass? && Source(t[0].group) == FieldStateBuffer(0) &&
      t[2].ComputePass? && t[2].kernel == UpdateFieldKernel && Source(t[2].group) == FieldStateBuffer(0) &&
      t[3].ComputePass? && t[3].kernel == ProcessFieldKernel &&
      t[9].RenderPass? && Source(t[9].group) == Target(t[3].group) == FieldStateBuffer(0)
  {
    var t, f0, f1 := Session(2, workgroups), FrameCommands(0, workgroups), FrameCommands(1, workgroups);
    assert Frames(0, 1, workgroups) == f0;
    assert t == StartCommands(0) + f0 + f1;
    assert t[2] == f0[0] && t[3] == f0[1] && t[9] == f1[2];
    RenderReadsPreviousProcessTarget(0, workgroups);
    PingPong(0);
    PingPong(1);
  }
}
